=== FILE: README.md ===
# Apothecary: verified model of the key, naming and validation logic

The Apothecary wedding website stores its pages and RSVPs through a small
`DAO` layer over DynamoDB. Almost all of that layer is I/O. This project
models the parts of it that are pure logic, together with two small helpers,
and proves properties about them in Dafny:

- **Key schema** (`key_schema.dfy`, module `KeySchema`). A table schema is a
  name, attribute definitions, a `KeySchema` list of
  `(AttributeName, KeyType)` entries and a provisioned capacity. The module
  models these:
  - `get_hash_key`: the first `HASH` entry, or `StopIteration` when there is none;
  - `get_range_key`, as written;
  - the `Key` map that `DAO.get` builds;
  - `add_tablename_prefix`;
  - the five table schemas of the application.
- **RSVP** (`rsvp.dfy`, module `Rsvp`). It models `non_null` (`thing or 'N/A'`)
  and `RSVP.__init__`. The partition key `rsvp_id` is the name lower-cased,
  stripped, with runs of spaces collapsed, and every stored field passes
  through `non_null`.
- **Class hierarchy** (`hierarchy.dfy`, module `Hierarchy`). It models
  `all_subclasses`, the recursive walk that `setup` uses as its table
  registry. The hierarchy is a finite map from a class to its ordered direct
  subclasses. Classes are numbered in definition order. Python creates a base
  class before its subclasses, so a subclass always has a larger number, and
  that is what makes the walk terminate.
- **Log file name** (`log_file.dfy`, module `LogFile`). It models
  `get_log_file`. The result is the `--log-file` option when it is truthy.
  Otherwise it is the script's last path segment, cut at its first `.`, with
  `.log` appended. The script path is a parameter.
- **Form validation** (`form_validation.dfy`, module `FormValidation`). It
  models `validateForm` from the client script. A form maps field names to
  optional strings. A call has three possible outcomes:
  - `return false` with an alert message;
  - no `return` at all (`undefined`);
  - a `TypeError` when a required name is neither a field of the form nor
    one of the form element's own properties or indices.

The shared helpers are:

- `wrappers.dfy`: `Option` and `Result`.
- `values.dfy`: the Python values `None`, `str` and `int`, and Python truthiness.
- `strs.dfy`: `str.lower`, `str.strip`, `str.split`, and `str.join`, which also
  serves for JavaScript's `Array.prototype.join`.

## Behaviour kept as written

- `get_range_key` filters on `'HASH'`, not on `'RANGE'`
  (apothecary/model.py:105). The model keeps this. `KeySchema.GetRangeKey`
  returns the hash entry. As a result, `KeySchema.GetKeyMap` always has
  exactly one entry, and a truthy range value overwrites the hash value.
- An absent `HASH` entry raises `StopIteration` from `next`
  (apothecary/model.py:101); there is no dedicated missing-key error.
- `rsvp_id` is computed from the raw name, while the stored `name` goes
  through `non_null`. So an empty name gives the key `""` next to the name
  `'N/A'`.

## Model

| member | source | states |
|---|---|---|
| KeySchema.FirstOfType | apothecary/model.py:101 | the generator's first match: a position holding the key type with no earlier one, or none exactly when no entry has that type |
| KeySchema.GetHashKey | apothecary/model.py:99-101 | succeeds exactly when some entry is `HASH`, and then returns the first such entry; otherwise raises `StopIteration` |
| KeySchema.GetRangeKey | apothecary/model.py:103-105 | as written, returns an entry of type `HASH` taken from the schema, and `None` exactly when there is no `HASH` entry |
| KeySchema.RangeKeyIsHashKey | apothecary/model.py:100-105 | the range lookup returns the same entry as the hash lookup, never a `RANGE` entry |
| KeySchema.GetKeyMap | apothecary/model.py:107-111 | fails exactly when there is no `HASH` entry; otherwise the key map has exactly one key, the hash attribute, bound to the range value when that is truthy and to the hash value when it is not |
| KeySchema.KeyMapLosesHashValue | apothecary/model.py:108-111 | with a truthy range value that differs from the hash value, the hash value does not appear in the key map at all |
| KeySchema.AddTablenamePrefix | apothecary/model.py:95-97 | the new table name is the prefix followed by the old name; attribute definitions, key schema and capacities are unchanged |
| KeySchema.EmptyPrefixIsNoOp | apothecary/model.py:96-97 | an empty prefix leaves the schema equal to itself |
| KeySchema.PrefixTwice | apothecary/model.py:96-97 | prefixing twice equals prefixing once with the concatenation of the two prefixes, the later one outermost |
| KeySchema.PrefixNotIdempotent | apothecary/model.py:96-97 | a non-empty prefix applied a second time changes the schema again |
| KeySchema.PrefixKeepsKeys | apothecary/model.py:96-111 | renaming the table changes neither key lookup nor the key map |
| KeySchema.AppSchemasHaveHashKeys | apothecary/model.py:155-292 | each of the five application tables has its named attribute as `HASH` key |
| Rsvp.NonNull | apothecary/model.py:308-309 | the result is always truthy (never `None`, `''` or `0`); a truthy argument comes back unchanged and a falsy one becomes `'N/A'` |
| Rsvp.NonNullIdempotent | apothecary/model.py:308-309 | applying `non_null` twice gives the same as once |
| Rsvp.CollapseSpaces | apothecary/model.py:295 | the result never has two spaces in a row, is no longer than the input, and keeps the first and last characters |
| Rsvp.CollapseWidens | apothecary/model.py:295 | the input is its collapse with some of its spaces repeated, so each run of spaces became exactly one space and nothing else changed |
| Rsvp.WidensUnique | apothecary/model.py:295 | at most one string without two spaces in a row can be widened into a given string |
| Rsvp.CollapseIsUnique | apothecary/model.py:295 | any string without double spaces that widens to the input is the collapse, so the collapse is fully fixed by its contract |
| Rsvp.CollapseKeepsNonSpaces | apothecary/model.py:295 | collapsing removes spaces only: the other characters survive, in order |
| Rsvp.NormalizeName | apothecary/model.py:295 | the id has no ASCII upper-case letter, no two consecutive spaces, neither starts nor ends with whitespace, and holds exactly the non-whitespace characters of the lower-cased name, in order |
| Rsvp.DifferentNamesDifferentIds | apothecary/model.py:295 | two names whose lower-cased non-whitespace characters differ get different ids |
| Rsvp.NormalizeNameIdempotent | apothecary/model.py:295 | normalising an id again gives the same id |
| Rsvp.NormalizeNameCollapsedFirst | apothecary/model.py:295 | the id equals the name lower-cased, collapsed and then stripped, so stripping and collapsing may be done in either order |
| Rsvp.SameIdUpToCaseAndSpacing | apothecary/model.py:295 | two names that agree once lower-cased with runs of spaces collapsed get the same id |
| Rsvp.NewRsvp | apothecary/model.py:294-301 | succeeds exactly when the name is a string (otherwise `AttributeError`); every stored field is truthy, each stored field, the name included, is its `non_null` value (so a non-empty name is stored unchanged), and the id is the normalised name |
| Rsvp.EmptyNameGivesEmptyId | apothecary/model.py:295-296 | an empty name yields the id `""` while the stored name is `'N/A'` |
| Rsvp.BlankNameGivesEmptyId | apothecary/model.py:295-296 | any non-empty name made only of whitespace yields the id `""` while the stored name keeps the whitespace |
| Strs.Strip | apothecary/model.py:295 | a non-empty result starts and ends with a non-whitespace character |
| Strs.Lower | apothecary/model.py:295 | every ASCII upper-case letter `A`-`Z` becomes its lower-case letter and every other character is kept, non-ASCII letters included; the length is unchanged |
| Strs.StripKeepsNonSpaces | apothecary/model.py:295 | `strip` removes whitespace only: the other characters survive, in order |
| Strs.StripIsFramed | apothecary/model.py:295 | what `strip` keeps is a contiguous slice of the input, and everything before and after that slice is whitespace |
| Strs.Split | util.py:39 | a split always has at least one piece, even of the empty string |
| Strs.SplitPiecesExcludeSep | util.py:39 | no piece of a split contains the separator |
| Strs.Join | apothecary/static/common.js:10 | `invalid.join(', ')`, and `'.'.join` in util.py: no parts join to `""`, one part joins to itself, and the length is the parts' total plus one separator per neighbouring pair |
| Strs.JoinAppend | apothecary/static/common.js:10 | joining two non-empty lists one after the other puts exactly one separator between their joins; with the one-part case this fixes every join |
| Strs.JoinSplit | util.py:39 | joining the pieces of a split with the same separator gives back the original string |
| Hierarchy.AllSubclasses | apothecary/model.py:304-305 | every listed class is defined after the class walked from; the direct subclasses come first, in order |
| Hierarchy.Subclasses | apothecary/model.py:305 | `__subclasses__()`: every direct subclass is defined after the class itself |
| Hierarchy.AllSubclassesOf | apothecary/model.py:305 | the comprehension over the direct subclasses only lists classes defined after the class walked from |
| Hierarchy.AllSubclassesAreSubclasses | apothecary/model.py:304-305 | a class appears in the walk exactly when it is a transitive subclass (a direct subclass, or a subclass of one) |
| Hierarchy.AllSubclassesOfContains | apothecary/model.py:305 | a class appears in the concatenated walks of a list of subclasses exactly when it appears in the walk of one of them |
| Hierarchy.NotOwnSubclass | apothecary/model.py:304-305 | a class never appears in its own walk |
| Hierarchy.LeavesHaveEmptyWalks | apothecary/model.py:304-305 | the walk below a list of classes that have no subclasses is empty |
| Hierarchy.AppRegistry | apothecary/model.py:155-292 | for the application's classes, the walk from `DAO` is exactly `NavGroup, SectionGroup, Couple, Guest, RSVP` |
| Hierarchy.AppRegistrySchemas | apothecary/model.py:316-320 | every class the registry lists declares a schema that has a hash key |
| Hierarchy.PrefixTables | apothecary/model.py:316-319 | the same classes keep a schema; with an empty prefix no schema changes, and a class the walk does not list is never changed |
| Hierarchy.PrefixTablesCount | apothecary/model.py:316-319 | each class's table name carries the prefix once per time the walk lists the class, and its other fields are unchanged |
| Hierarchy.DistinctWalkPrefixesOnce | apothecary/model.py:316-319 | when the walk lists every class exactly once, each schema ends up as `add_tablename_prefix(prefix)` would leave it |
| Hierarchy.AppSetupPrefixesOnce | apothecary/model.py:155-319 | in the application each of the five table names is prefixed exactly once, as `add_tablename_prefix` would do it |
| LogFile.AfterLast | util.py:39 | the text after the last separator contains no separator |
| LogFile.AfterLastIsLastSegment | util.py:39 | that text is a suffix of the input, preceded by the separator whenever it is shorter than the input |
| LogFile.BeforeFirst | util.py:39 | the longest prefix free of the separator, followed by the separator when shorter than the input |
| LogFile.SplitFirst | util.py:39 | the first piece of a split is the text before the first separator |
| LogFile.SplitLast | util.py:39 | the last piece of a split is the text after the last separator |
| LogFile.ProgramName | util.py:39 | the split-and-join expression yields the last path segment cut before its first `.`, so it contains neither `/` nor `.` |
| LogFile.GetLogFile | util.py:36-41 | a truthy option is returned unchanged; otherwise the result ends in `.log` and what precedes it is the program name |
| LogFile.SameBasenameSameLogFile | util.py:39-40 | two script paths with the same last segment give the same log file |
| LogFile.SegmentWithoutDotIsWhole | util.py:39 | a last segment without a `.` is used whole |
| LogFile.EmptyOptionIsAbsent | util.py:37-38 | an empty `--log-file` is treated as if it were absent |
| LogFile.ScriptLogFile | util.py:39-40 | a script `stem.ext` with no `.` in the stem logs to `stem.log`, whether it is run by bare name or from any directory (so `util.py` logs to `util.log`) |
| Values.Truthy | apothecary/model.py:309 | Python truthiness, as `or` (here) and `if range_key` (apothecary/model.py:110) use it: `None`, `''` and `0` are falsy and every other value is truthy; `Rsvp.NonNull`, `Rsvp.FieldsFilled` and `KeySchema.GetKeyMap` are stated through it. The `not log_file` test of util.py:38 is written out in `LogFile.GetLogFile` as "absent or the empty string", the only falsy values a docopt option takes |
| Strs.IsSpace | apothecary/model.py:295 | the characters Python's `str.strip()` removes: `' '`, U+0009 to U+000D, U+001C to U+001F, U+0085, U+00A0, U+1680, U+2000 to U+200A, U+2028, U+2029, U+202F, U+205F and U+3000 |
| LogFile.Last | util.py:39 | `[-1]` on a non-empty list: the list is everything before the result followed by the result |
| FormValidation.IsEmptyValue | apothecary/static/common.js:5 | `x == null \|\| x == ""`: only a null or empty value is empty; `FormValidation.NonEmptyValuesAreFilled` states that blanks are not |
| FormValidation.FirstMissing | apothecary/static/common.js:3-4 | the first required name the form has no field for, and none exactly when all are present |
| FormValidation.EmptyFields | apothecary/static/common.js:2-8 | each name occurs in `invalid` as often as in `required` when its value is null or `""`, and not at all otherwise |
| FormValidation.EmptyFieldsMembers | apothecary/static/common.js:3-8 | a name is reported exactly when it is required and its value is null or `""` |
| FormValidation.EmptyFieldsInOrder | apothecary/static/common.js:3-7 | the reported names are a subsequence of `required`, so they keep its order |
| FormValidation.ValidateForm | apothecary/static/common.js:1-13 | throws exactly when a required field is missing; with all present, returns `false` exactly when some required value is empty, with the alert `Required fields are empty: ` followed by the empty names joined by `, `; otherwise returns nothing |
| FormValidation.OtherFieldsIrrelevant | apothecary/static/common.js:3-4 | two forms that agree on every required name give the same outcome |
| FormValidation.NonEmptyValuesAreFilled | apothecary/static/common.js:5-12 | when every required value is non-empty, blanks included, nothing counts as empty and the call returns nothing rather than `true` |
| FormValidation.RepeatedNameReportedTwice | apothecary/static/common.js:3-10 | for any form, a name required twice whose value is null or `""` appears twice in the alert, separated by `, ` |

## Left out

- DynamoDB I/O is not modelled: `create_table`, `delete_table`, `table`, and the item calls in `get` and `put`. Neither is JSON/jsonpickle serialisation. These are calls into boto3 and jsonpickle, whose code is not part of this model. Only the key map that `get` passes to the store is modelled.
- `DAO.update` and `DAO.delete` are not modelled. `update` passes `Item=` to `update_item`, and `delete` uses the undefined name `cls`, so neither works as written.
- The rest of `setup` is not modelled: its table create/delete/wait calls, which are store I/O, and its seed data, which is content. Its prefixing is modelled by `Hierarchy.PrefixTables` over the registry of `Hierarchy.AppRegistry`.
- Hierarchy.PrefixTables: gives every class its own schema. A class that inherited its `schema` dictionary instead of declaring one would share it with its base; that is not modelled. In this application every listed class declares its own (apothecary/model.py:156, 189, 222, 249, 274). In a diamond hierarchy `all_subclasses` lists a class once per inheritance path, so `setup` prefixes its table once per listing; `Hierarchy.PrefixTablesCount` states this for every walk, and `Hierarchy.DistinctWalkPrefixesOnce` restricts the single prefix to walks without repeats, as the application's is.
- The placeholder `schema` template of `DAO` (secondary indexes, stream specification) is data, not logic. `KeySchema.Schema` keeps only the fields the application's tables declare.
- `dump_rsvp` in the utility script is not modelled. It calls `RSVP.scan`, `dump_csv` and `dump_csv_header`, which are not defined in the model file, and it only prints.
- The authentication module, the Flask routes, the development launcher and docopt option parsing are not modelled. They are web and command-line glue.
- FormValidation.ValidateForm: a required name with no field throws only when the form element has no property or index of that name either. In a browser `form["action"]`, `form["method"]`, `form["length"]` or `form["submit"]` reads the element's own property, whose `.value` is `undefined`, so the name is reported as empty instead of throwing; `form["0"]` reads the first control. The form map leaves those names out, so the model throws for them.
- The DOM lookup `document.forms[formName]` is not modelled; the form is a parameter. The `alert` side effect is modelled as the message carried by `ReturnedFalse`.
- The log configuration that uses `get_log_file` is not modelled. A missing `__main__.__file__` (an interactive session) is not modelled either.
- Strs.Lower: maps only `A`-`Z` to `a`-`z`; every non-ASCII letter is left as it is, where Python's `str.lower` would map it (for example `É` to `é`). The model does not include the Unicode case tables.
- Rsvp.NormalizeName: lower-cases the ASCII letters only. Python's `str.lower` also maps non-ASCII letters, and the model does not include the Unicode case tables.
- Python values are modelled as `None`, strings and integers only. Other Python values (floats, containers) reaching `non_null` or `DAO.get` are not modelled.
- Hierarchy.AllSubclasses: is stated for hierarchies whose subclasses are defined after their bases. Python guarantees this for class statements; hierarchies built otherwise are not modelled.

=== FILE: form_validation.dfy ===
/**
 * `validateForm(formName, required)` of the site's client script: collect,
 * in order, the required fields whose value is null or empty; if there are
 * any, alert their names and return `false`; otherwise fall off the end of
 * the function. The form `document.forms[formName]` is a parameter.
 */
module FormValidation {
  import opened Wrappers
  import opened Strs

  /** A form: field name to field value, `None` standing for `null`. */
  type Form = map<string, Option<string>>

  /** How a call ends: `return false` after an alert, no `return` at all, or a thrown `TypeError`. */
  datatype Outcome =
    | ReturnedFalse(alertMessage: string)
    | ReturnedUndefined
    | ThrewTypeError(missingField: string)  // `.value` read on a field the form does not have

  const AlertPrefix: string := "Required fields are empty: "

  /** `x == null || x == ""`; a value of blanks is not empty. */
  predicate IsEmptyValue(v: Option<string>) {
    v.None? || v.value == ""
  }

  predicate AllPresent(form: Form, required: seq<string>) {
    forall i :: 0 <= i < |required| ==> required[i] in form
  }

  /** The first required name the form has no field for: the iteration that throws. */
  function FirstMissing(form: Form, required: seq<string>): (r: Option<string>)
    ensures r.None? <==> AllPresent(form, required)
    ensures r.Some? ==> exists i :: 0 <= i < |required| && required[i] == r.value
                                    && (forall j :: 0 <= j < i ==> required[j] in form)
    ensures r.Some? ==> r.value !in form
  {
    if |required| == 0 then None
    else if required[0] !in form then Some(required[0])
    else
      var rest := FirstMissing(form, required[1..]);
      if rest.Some? then
        assert exists i :: 0 <= i < |required| && required[i] == rest.value
                           && (forall j :: 0 <= j < i ==> required[j] in form) by {
          var k :| 0 <= k < |required[1..]| && required[1..][k] == rest.value
                   && (forall j :: 0 <= j < k ==> required[1..][j] in form);
          assert required[k + 1] == rest.value;
          assert forall j :: 1 <= j < k + 1 ==> required[j] == required[1..][j - 1];
        }
        rest
      else
        rest
  }

  /** The `invalid` array: the required names, in order, whose value is empty. */
  function EmptyFields(form: Form, required: seq<string>): (r: seq<string>)
    requires AllPresent(form, required)
    ensures forall x :: multiset(r)[x] == if x in form && IsEmptyValue(form[x]) then multiset(required)[x] else 0
  {
    if |required| == 0 then []
    else
      var head := if IsEmptyValue(form[required[0]]) then [required[0]] else [];
      assert required == [required[0]] + required[1..];
      head + EmptyFields(form, required[1..])
  }

  /** A name is reported exactly when it is required and its value is empty. */
  lemma EmptyFieldsMembers(form: Form, required: seq<string>, x: string)
    requires AllPresent(form, required)
    ensures x in EmptyFields(form, required) <==> x in required && IsEmptyValue(form[x])
  {
    var r := EmptyFields(form, required);
    assert x in r <==> multiset(r)[x] > 0;
    assert x in required <==> multiset(required)[x] > 0;
  }

  /** `a` is `b` with some elements left out, the rest in their order. */
  predicate IsSubsequence<T(==)>(a: seq<T>, b: seq<T>)
    decreases |b|
  {
    if |a| == 0 then true
    else if |b| == 0 then false
    else if a[0] == b[0] then IsSubsequence(a[1..], b[1..])
    else IsSubsequence(a, b[1..])
  }

  /** The reported names keep the order of `required`. */
  lemma {:induction false} EmptyFieldsInOrder(form: Form, required: seq<string>)
    requires AllPresent(form, required)
    ensures IsSubsequence(EmptyFields(form, required), required)
  {
    if |required| > 0 {
      EmptyFieldsInOrder(form, required[1..]);
      var rest := EmptyFields(form, required[1..]);
      if !IsEmptyValue(form[required[0]]) {
        assert EmptyFields(form, required) == rest;
        SubsequenceOfTail(rest, required);
      } else {
        assert EmptyFields(form, required) == [required[0]] + rest;
        assert ([required[0]] + rest)[1..] == rest;
      }
    }
  }

  /** A subsequence of the tail is a subsequence of the whole. */
  lemma {:induction false} SubsequenceOfTail<T>(a: seq<T>, b: seq<T>)
    requires |b| > 0 && IsSubsequence(a, b[1..])
    ensures IsSubsequence(a, b)
    decreases |b|, 0
  {
    if |a| > 0 && a[0] == b[0] {
      SubsequenceDropHead(a, b[1..]);
    }
  }

  /** Leaving out the first element of a subsequence keeps it a subsequence. */
  lemma {:induction false} SubsequenceDropHead<T>(a: seq<T>, b: seq<T>)
    requires |a| > 0 && IsSubsequence(a, b)
    ensures IsSubsequence(a[1..], b)
    decreases |b|, 1
  {
    if a[0] == b[0] {
      SubsequenceOfTail(a[1..], b);
    } else {
      SubsequenceDropHead(a, b[1..]);
      SubsequenceOfTail(a[1..], b);
    }
  }

  /** `validateForm(formName, required)` with `document.forms[formName]` given as `form`. */
  function ValidateForm(form: Form, required: seq<string>): (r: Outcome)
    ensures r.ThrewTypeError? <==> !AllPresent(form, required)
    ensures r.ThrewTypeError? ==> r.missingField in required && r.missingField !in form
    ensures AllPresent(form, required) ==>
              (r.ReturnedFalse? <==> exists i :: 0 <= i < |required| && IsEmptyValue(form[required[i]]))
    ensures r.ReturnedFalse? ==> AllPresent(form, required)
                                 && r.alertMessage == AlertPrefix + Join(EmptyFields(form, required), ", ")
  {
    match FirstMissing(form, required)
    case Some(field) => ThrewTypeError(field)
    case None =>
      var invalid := EmptyFields(form, required);
      if |invalid| > 0 then
        var x := invalid[0];
        EmptyFieldsMembers(form, required, x);
        ReturnedFalse(AlertPrefix + Join(invalid, ", "))
      else
        assert forall i :: 0 <= i < |required| ==> !IsEmptyValue(form[required[i]]) by {
          forall i | 0 <= i < |required|
            ensures !IsEmptyValue(form[required[i]])
          {
            EmptyFieldsMembers(form, required, required[i]);
          }
        }
        ReturnedUndefined
  }

  /** The two forms have the same fields, with the same values, under every required name. */
  predicate AgreeOn(f1: Form, f2: Form, required: seq<string>) {
    forall i :: 0 <= i < |required| ==>
      (required[i] in f1 <==> required[i] in f2)
      && (required[i] in f1 ==> f1[required[i]] == f2[required[i]])
  }

  lemma {:induction false} AgreeOnTail(f1: Form, f2: Form, required: seq<string>)
    requires |required| > 0 && AgreeOn(f1, f2, required)
    ensures AgreeOn(f1, f2, required[1..])
  {
    forall i | 0 <= i < |required[1..]|
      ensures required[1..][i] == required[i + 1]
    {
    }
  }

  lemma {:induction false} FirstMissingReadsRequiredOnly(f1: Form, f2: Form, required: seq<string>)
    requires AgreeOn(f1, f2, required)
    ensures FirstMissing(f1, required) == FirstMissing(f2, required)
  {
    if |required| > 0 {
      AgreeOnTail(f1, f2, required);
      FirstMissingReadsRequiredOnly(f1, f2, required[1..]);
    }
  }

  lemma {:induction false} EmptyFieldsReadRequiredOnly(f1: Form, f2: Form, required: seq<string>)
    requires AgreeOn(f1, f2, required) && AllPresent(f1, required)
    ensures AllPresent(f2, required)
    ensures EmptyFields(f1, required) == EmptyFields(f2, required)
  {
    if |required| > 0 {
      AgreeOnTail(f1, f2, required);
      EmptyFieldsReadRequiredOnly(f1, f2, required[1..]);
    }
  }

  /** Fields not named in `required` are never read: changing them cannot change the outcome. */
  lemma OtherFieldsIrrelevant(f1: Form, f2: Form, required: seq<string>)
    requires AgreeOn(f1, f2, required)
    ensures ValidateForm(f1, required) == ValidateForm(f2, required)
  {
    FirstMissingReadsRequiredOnly(f1, f2, required);
    if AllPresent(f1, required) {
      EmptyFieldsReadRequiredOnly(f1, f2, required);
    }
  }

  /**
   * Any non-empty value counts as filled in, blanks included (the client script
   * does not trim): no alert, and no return value rather than `true`.
   */
  lemma NonEmptyValuesAreFilled(form: Form, required: seq<string>)
    requires AllPresent(form, required)
    requires forall i :: 0 <= i < |required| ==> form[required[i]].Some? && |form[required[i]].value| > 0
    ensures ValidateForm(form, required) == ReturnedUndefined
  {
    assert forall i :: 0 <= i < |required| ==> !IsEmptyValue(form[required[i]]);
  }

  /** A name required twice with an empty value is reported twice. */
  lemma RepeatedNameReportedTwice(form: Form, name: string)
    requires name in form && IsEmptyValue(form[name])
    ensures ValidateForm(form, [name, name]) == ReturnedFalse(AlertPrefix + name + ", " + name)
  {
    var required := [name, name];
    assert required[1..] == [name];
    assert FirstMissing(form, required) == None;
    assert EmptyFields(form, [name]) == [name];
    var invalid := EmptyFields(form, required);
    assert invalid == [name] + [name];
    assert Join(invalid, ", ") == name + ", " + name by {
      assert invalid[1..] == [name];
    }
  }
}

=== FILE: hierarchy.dfy ===
/**
 * The class hierarchy that `all_subclasses` walks to find every table class.
 * A class is identified by its position in definition order: Python creates
 * a base class before any of its subclasses, so a subclass always sits after
 * its base, which is what makes the walk terminate.
 */
module Hierarchy {
  import KeySchema

  type ClassId = nat

  /** Class names in definition order, and each class's direct subclasses in order. */
  datatype Hierarchy = Hierarchy(names: seq<string>, direct: map<ClassId, seq<ClassId>>)

  /** Every class in `cs` is defined after `c` and before `bound`. */
  predicate Below(cs: seq<ClassId>, c: ClassId, bound: nat) {
    forall d :: d in cs ==> c < d < bound
  }

  /** Every class named in `direct` exists, and each subclass is defined after its base. */
  predicate Valid(h: Hierarchy) {
    forall c :: c in h.direct ==> c < |h.names| && Below(h.direct[c], c, |h.names|)
  }

  /** `cls.__subclasses__()`: a class without an entry has no subclasses. */
  function Subclasses(h: Hierarchy, c: ClassId): (r: seq<ClassId>)
    requires Valid(h)
    ensures Below(r, c, |h.names|)
  {
    if c in h.direct then h.direct[c] else []
  }

  /** `all_subclasses(cls)`: the direct subclasses, then the walk below each of them in turn. */
  function AllSubclasses(h: Hierarchy, c: ClassId): (r: seq<ClassId>)
    requires Valid(h) && c < |h.names|
    ensures Below(r, c, |h.names|)
    ensures |r| >= |Subclasses(h, c)| && r[..|Subclasses(h, c)|] == Subclasses(h, c)
    decreases |h.names| - c, 1, 0
  {
    Subclasses(h, c) + AllSubclassesOf(h, Subclasses(h, c), c)
  }

  /** The walks below each of `cs`, concatenated in order. */
  function AllSubclassesOf(h: Hierarchy, cs: seq<ClassId>, parent: ClassId): (r: seq<ClassId>)
    requires Valid(h)
    requires Below(cs, parent, |h.names|)
    ensures Below(r, parent, |h.names|)
    decreases |h.names| - parent, 0, |cs|
  {
    if |cs| == 0 then []
    else
      assert cs[0] in cs && forall d :: d in cs[1..] ==> d in cs;
      AllSubclasses(h, cs[0]) + AllSubclassesOf(h, cs[1..], parent)
  }

  /** `d` is a transitive subclass of `c`: a direct subclass, or a subclass of one. */
  ghost predicate IsSubclass(h: Hierarchy, c: ClassId, d: ClassId)
    requires Valid(h) && c < |h.names|
    decreases |h.names| - c
  {
    var subs := Subclasses(h, c);
    exists e :: e in subs && (e == d || IsSubclass(h, e, d))
  }

  /** The walk lists exactly the transitive subclasses. */
  lemma {:induction false} AllSubclassesAreSubclasses(h: Hierarchy, c: ClassId, d: ClassId)
    requires Valid(h) && c < |h.names|
    ensures d in AllSubclasses(h, c) <==> IsSubclass(h, c, d)
    decreases |h.names| - c
  {
    var subs := Subclasses(h, c);
    AllSubclassesOfContains(h, subs, c, d);
    if d in AllSubclasses(h, c) && d !in subs {
      assert d in AllSubclassesOf(h, subs, c);
      var e :| e in subs && d in AllSubclasses(h, e);
      AllSubclassesAreSubclasses(h, e, d);
    }
    if IsSubclass(h, c, d) {
      var e :| e in subs && (e == d || IsSubclass(h, e, d));
      if e != d {
        AllSubclassesAreSubclasses(h, e, d);
        assert InSomeWalk(h, subs, c, d);
      }
    }
  }

  /** `d` occurs in the walk below one of `cs`. */
  ghost predicate InSomeWalk(h: Hierarchy, cs: seq<ClassId>, parent: ClassId, d: ClassId)
    requires Valid(h)
    requires Below(cs, parent, |h.names|)
  {
    exists e :: e in cs && d in AllSubclasses(h, e)
  }

  /** `d` occurs in the concatenated walks exactly when it occurs in one of them. */
  lemma {:induction false} AllSubclassesOfContains(h: Hierarchy, cs: seq<ClassId>, parent: ClassId, d: ClassId)
    requires Valid(h)
    requires Below(cs, parent, |h.names|)
    ensures d in AllSubclassesOf(h, cs, parent) <==> InSomeWalk(h, cs, parent, d)
    decreases |cs|
  {
    if |cs| > 0 {
      var tail := cs[1..];
      assert cs[0] in cs && forall e :: e in tail ==> e in cs;
      AllSubclassesOfContains(h, tail, parent, d);
      assert AllSubclassesOf(h, cs, parent) == AllSubclasses(h, cs[0]) + AllSubclassesOf(h, tail, parent);
      if InSomeWalk(h, cs, parent, d) {
        var e :| e in cs && d in AllSubclasses(h, e);
        if e != cs[0] {
          assert e in tail;
          assert InSomeWalk(h, tail, parent, d);
        }
      }
    }
  }

  /** A class is never among its own subclasses. */
  lemma NotOwnSubclass(h: Hierarchy, c: ClassId)
    requires Valid(h) && c < |h.names|
    ensures c !in AllSubclasses(h, c)
  {
  }

  const Dao: ClassId := 0
  const NavGroup: ClassId := 1
  const Nav: ClassId := 2
  const SectionGroup: ClassId := 3
  const Section: ClassId := 4
  const Couple: ClassId := 5
  const Guest: ClassId := 6
  const Rsvp: ClassId := 7

  /** The classes of the application's model, in the order they are defined. */
  const AppHierarchy: Hierarchy :=
    Hierarchy(["DAO", "NavGroup", "Nav", "SectionGroup", "Section", "Couple", "Guest", "RSVP"],
              map[Dao := [NavGroup, SectionGroup, Couple, Guest, Rsvp]])

  /** The table schema each `DAO` subclass declares. */
  const AppSchemas: map<ClassId, KeySchema.Schema> :=
    map[NavGroup := KeySchema.NavGroupSchema, SectionGroup := KeySchema.SectionGroupSchema,
        Couple := KeySchema.CoupleSchema, Guest := KeySchema.GuestSchema, Rsvp := KeySchema.RsvpSchema]

  lemma AppHierarchyValid()
    ensures Valid(AppHierarchy)
  {
    var h := AppHierarchy;
    assert h.direct.Keys == {Dao};
    assert Below(h.direct[Dao], Dao, |h.names|);
  }

  /** Classes that declare no subclasses contribute nothing below themselves. */
  lemma {:induction false} LeavesHaveEmptyWalks(h: Hierarchy, cs: seq<ClassId>, parent: ClassId)
    requires Valid(h) && Below(cs, parent, |h.names|)
    requires forall c :: c in cs ==> c !in h.direct
    ensures AllSubclassesOf(h, cs, parent) == []
    decreases |cs|
  {
    if |cs| > 0 {
      assert cs[0] in cs && forall c :: c in cs[1..] ==> c in cs;
      assert Subclasses(h, cs[0]) == [];
      assert AllSubclasses(h, cs[0]) == [] + AllSubclassesOf(h, [], cs[0]);
      LeavesHaveEmptyWalks(h, cs[1..], parent);
    }
  }

  /** `all_subclasses(DAO)` lists the five table classes in definition order. */
  lemma AppRegistry()
    ensures Valid(AppHierarchy)
    ensures AllSubclasses(AppHierarchy, Dao) == [NavGroup, SectionGroup, Couple, Guest, Rsvp]
  {
    AppHierarchyValid();
    var h := AppHierarchy;
    var subs := Subclasses(h, Dao);
    assert subs == [NavGroup, SectionGroup, Couple, Guest, Rsvp];
    assert forall c :: c in subs ==> c !in h.direct;
    LeavesHaveEmptyWalks(h, subs, Dao);
  }

  /** Every class in the registry declares a schema with a hash key, so `setup` and `get` can use it. */
  lemma AppRegistrySchemas()
    ensures Valid(AppHierarchy)
    ensures forall c :: c in AllSubclasses(AppHierarchy, Dao) ==>
              c in AppSchemas && KeySchema.GetHashKey(AppSchemas[c]).Success?
  {
    AppRegistry();
    KeySchema.AppSchemasHaveHashKeys();
  }

  /** How many times `walk` lists `c`. */
  function Occurrences(walk: seq<ClassId>, c: ClassId): nat {
    if |walk| == 0 then 0 else (if walk[0] == c then 1 else 0) + Occurrences(walk[1..], c)
  }

  /** A walk that lists no class twice lists each of its classes once. */
  lemma {:induction false} OccurrencesOfDistinct(walk: seq<ClassId>, c: ClassId)
    requires forall i, j :: 0 <= i < j < |walk| ==> walk[i] != walk[j]
    ensures Occurrences(walk, c) == if c in walk then 1 else 0
  {
    if |walk| > 0 {
      OccurrencesOfDistinct(walk[1..], c);
      assert c in walk <==> c == walk[0] || c in walk[1..];
      if c == walk[0] {
        assert c !in walk[1..] by {
          forall k | 0 <= k < |walk[1..]|
            ensures walk[1..][k] != c
          {
            assert walk[1..][k] == walk[k + 1];
          }
        }
      }
    }
  }

  /** `prefix` written `n` times. */
  function Repeat(prefix: string, n: nat): string {
    if n == 0 then "" else Repeat(prefix, n - 1) + prefix
  }

  lemma {:induction false} RepeatEmpty(n: nat)
    ensures Repeat("", n) == ""
  {
    if n > 0 {
      RepeatEmpty(n - 1);
    }
  }

  /**
   * The prefixing in `setup`'s loop: when `prefix` is non-empty, each class the
   * walk lists has `add_tablename_prefix(prefix)` applied to its schema, once per
   * time it is listed.
   */
  function PrefixTables(schemas: map<ClassId, KeySchema.Schema>, walk: seq<ClassId>, prefix: string)
    : (r: map<ClassId, KeySchema.Schema>)
    requires forall c :: c in walk ==> c in schemas
    ensures r.Keys == schemas.Keys
    ensures prefix == "" ==> r == schemas
    ensures forall c :: c in schemas && c !in walk ==> r[c] == schemas[c]
    decreases |walk|
  {
    if prefix == "" || |walk| == 0 then schemas
    else
      var c := walk[0];
      assert forall d :: d in walk[1..] ==> d in walk;
      PrefixTables(schemas[c := KeySchema.AddTablenamePrefix(schemas[c], prefix)], walk[1..], prefix)
  }

  /** Each class's table name carries the prefix once per time the walk lists the class. */
  lemma {:induction false} PrefixTablesCount(schemas: map<ClassId, KeySchema.Schema>, walk: seq<ClassId>,
                                             prefix: string, d: ClassId)
    requires forall c :: c in walk ==> c in schemas
    requires d in schemas
    ensures PrefixTables(schemas, walk, prefix)[d]
            == schemas[d].(tableName := Repeat(prefix, Occurrences(walk, d)) + schemas[d].tableName)
    decreases |walk|
  {
    if prefix == "" {
      RepeatEmpty(Occurrences(walk, d));
    } else if |walk| > 0 {
      var c := walk[0];
      var next := schemas[c := KeySchema.AddTablenamePrefix(schemas[c], prefix)];
      assert forall e :: e in walk[1..] ==> e in walk;
      PrefixTablesCount(next, walk[1..], prefix, d);
      var n := Occurrences(walk[1..], d);
      if d == c {
        assert Occurrences(walk, d) == n + 1;
        PrefixOnceMore(schemas[d], prefix, n);
      } else {
        assert Occurrences(walk, d) == n;
      }
    }
  }

  /** One more listing of a class adds one more copy of the prefix in front. */
  lemma PrefixOnceMore(s: KeySchema.Schema, prefix: string, n: nat)
    ensures var once := KeySchema.AddTablenamePrefix(s, prefix);
            once.(tableName := Repeat(prefix, n) + once.tableName)
            == s.(tableName := Repeat(prefix, n + 1) + s.tableName)
  {
    assert Repeat(prefix, n + 1) + s.tableName == Repeat(prefix, n) + (prefix + s.tableName);
  }

  /** A walk that lists every class exactly once prefixes every table name exactly once. */
  lemma DistinctWalkPrefixesOnce(schemas: map<ClassId, KeySchema.Schema>, walk: seq<ClassId>, prefix: string)
    requires forall c :: c in walk ==> c in schemas
    requires forall c :: c in schemas ==> c in walk
    requires forall i, j :: 0 <= i < j < |walk| ==> walk[i] != walk[j]
    ensures forall c :: c in schemas ==>
              PrefixTables(schemas, walk, prefix)[c] == KeySchema.AddTablenamePrefix(schemas[c], prefix)
  {
    forall c | c in schemas
      ensures PrefixTables(schemas, walk, prefix)[c] == KeySchema.AddTablenamePrefix(schemas[c], prefix)
    {
      OccurrencesOfDistinct(walk, c);
      PrefixTablesCount(schemas, walk, prefix, c);
      assert Repeat(prefix, 1) == prefix;
    }
  }

  /** With the application's registry, `setup(prefix=p)` prefixes every table name exactly once. */
  lemma AppSetupPrefixesOnce(prefix: string)
    ensures Valid(AppHierarchy)
    ensures forall c :: c in AllSubclasses(AppHierarchy, Dao) ==> c in AppSchemas
    ensures forall c :: c in AppSchemas ==>
              PrefixTables(AppSchemas, AllSubclasses(AppHierarchy, Dao), prefix)[c]
              == KeySchema.AddTablenamePrefix(AppSchemas[c], prefix)
  {
    AppRegistry();
    var walk := AllSubclasses(AppHierarchy, Dao);
    assert AppSchemas.Keys == {NavGroup, SectionGroup, Couple, Guest, Rsvp};
    DistinctWalkPrefixesOnce(AppSchemas, walk, prefix);
  }
}

=== FILE: key_schema.dfy ===
/**
 * The table-schema logic of the `DAO` base class: finding the partition
 * ("HASH") key, the range-key lookup, the key map that `DAO.get` hands to the
 * store, and the table-name prefix used to separate environments.
 */
module KeySchema {
  import opened Wrappers
  import opened Values

  /** One `KeySchema` entry: an attribute name and its `KeyType` string. */
  datatype KeyElement = KeyElement(attributeName: string, keyType: string)

  /** One `AttributeDefinitions` entry: an attribute name and its type letter. */
  datatype AttributeDefinition = AttributeDefinition(attributeName: string, attributeType: string)

  /** A table description as a `DAO` subclass declares it in its `schema` attribute. */
  datatype Schema = Schema(
    tableName: string,
    attributeDefinitions: seq<AttributeDefinition>,
    keySchema: seq<KeyElement>,
    readCapacityUnits: nat,
    writeCapacityUnits: nat)

  /** The exceptions the key lookups raise. */
  datatype DaoError =
    | StopIteration  // `next` on an exhausted generator, with no default

  const HashKeyType: string := "HASH"
  const RangeKeyType: string := "RANGE"

  /** Position of the first entry of `ks` whose `KeyType` equals `keyType`. */
  function FirstOfType(ks: seq<KeyElement>, keyType: string): (r: Option<nat>)
    ensures r.Some? ==> r.value < |ks| && ks[r.value].keyType == keyType
    ensures r.Some? ==> forall j :: 0 <= j < r.value ==> ks[j].keyType != keyType
    ensures r.None? <==> forall j :: 0 <= j < |ks| ==> ks[j].keyType != keyType
  {
    if |ks| == 0 then None
    else if ks[0].keyType == keyType then Some(0)
    else
      match FirstOfType(ks[1..], keyType)
      case None => None
      case Some(k) => Some(k + 1)
  }

  predicate HasHashEntry(s: Schema) {
    exists j :: 0 <= j < |s.keySchema| && s.keySchema[j].keyType == HashKeyType
  }

  /** `DAO.get_hash_key`: the first `HASH` entry; `StopIteration` when there is none. */
  function GetHashKey(s: Schema): (r: Result<KeyElement, DaoError>)
    ensures r.Success? <==> HasHashEntry(s)
    ensures r.Failure? ==> r.error == StopIteration
    ensures r.Success? ==> exists i :: 0 <= i < |s.keySchema| && s.keySchema[i] == r.value
                                       && s.keySchema[i].keyType == HashKeyType
                                       && forall j :: 0 <= j < i ==> s.keySchema[j].keyType != HashKeyType
  {
    match FirstOfType(s.keySchema, HashKeyType)
    case Some(i) => Success(s.keySchema[i])
    case None => Failure(StopIteration)
  }

  /**
   * `DAO.get_range_key` as written: the generator filters on `HASH`, not on
   * `RANGE`, with `None` as the default for `next`.
   */
  function GetRangeKey(s: Schema): (r: Option<KeyElement>)
    ensures r.Some? ==> r.value in s.keySchema && r.value.keyType == HashKeyType
    ensures r.None? <==> !HasHashEntry(s)
  {
    match FirstOfType(s.keySchema, HashKeyType)
    case Some(i) => Some(s.keySchema[i])
    case None => None
  }

  /** The "range" key is always the hash key: both lookups pick the same entry. */
  lemma RangeKeyIsHashKey(s: Schema)
    ensures GetRangeKey(s) == GetHashKey(s).ToOption()
    ensures GetRangeKey(s).Some? ==> GetRangeKey(s).value.keyType != RangeKeyType
  {
  }

  /**
   * The `Key` map that `DAO.get` builds before calling the store: the hash
   * attribute mapped to `hashKey`, then, when `rangeKey` is truthy and a
   * range entry is found, the range attribute mapped to `rangeKey`.
   */
  function GetKeyMap(s: Schema, hashKey: Value, rangeKey: Value): (r: Result<map<string, Value>, DaoError>)
    ensures r.Failure? <==> !HasHashEntry(s)
    ensures r.Failure? ==> r.error == StopIteration
    ensures r.Success? ==> r.value.Keys == {GetHashKey(s).value.attributeName} && |r.value| == 1
    ensures r.Success? && !Truthy(rangeKey) ==> r.value[GetHashKey(s).value.attributeName] == hashKey
    ensures r.Success? && Truthy(rangeKey) ==> r.value[GetHashKey(s).value.attributeName] == rangeKey
  {
    match GetHashKey(s)
    case Failure(e) => Failure(e)
    case Success(hash) =>
      var keys := map[hash.attributeName := hashKey];
      if Truthy(rangeKey) && GetRangeKey(s).Some? then
        Success(keys[GetRangeKey(s).value.attributeName := rangeKey])
      else
        Success(keys)
  }

  /** A truthy range value different from the hash value makes the hash value vanish from the key. */
  lemma KeyMapLosesHashValue(s: Schema, hashKey: Value, rangeKey: Value)
    requires HasHashEntry(s) && Truthy(rangeKey) && rangeKey != hashKey
    ensures GetKeyMap(s, hashKey, rangeKey).Success?
    ensures hashKey !in GetKeyMap(s, hashKey, rangeKey).value.Values
  {
  }

  /** `DAO.add_tablename_prefix`: `TableName` becomes `prefix + TableName`. */
  function AddTablenamePrefix(s: Schema, prefix: string): (r: Schema)
    ensures |r.tableName| == |prefix| + |s.tableName|
    ensures r.tableName[..|prefix|] == prefix && r.tableName[|prefix|..] == s.tableName
    ensures r.attributeDefinitions == s.attributeDefinitions && r.keySchema == s.keySchema
    ensures r.readCapacityUnits == s.readCapacityUnits && r.writeCapacityUnits == s.writeCapacityUnits
  {
    s.(tableName := prefix + s.tableName)
  }

  /** An empty prefix leaves the schema as it was. */
  lemma EmptyPrefixIsNoOp(s: Schema)
    ensures AddTablenamePrefix(s, "") == s
  {
    assert "" + s.tableName == s.tableName;
  }

  /** Two prefixes in a row amount to their concatenation, the later one outermost. */
  lemma PrefixTwice(s: Schema, first: string, second: string)
    ensures AddTablenamePrefix(AddTablenamePrefix(s, first), second) == AddTablenamePrefix(s, second + first)
  {
    assert second + (first + s.tableName) == (second + first) + s.tableName;
  }

  /** A non-empty prefix applied again prefixes again: the operation is not idempotent. */
  lemma PrefixNotIdempotent(s: Schema, prefix: string)
    requires prefix != ""
    ensures AddTablenamePrefix(AddTablenamePrefix(s, prefix), prefix) != AddTablenamePrefix(s, prefix)
  {
    var once := AddTablenamePrefix(s, prefix);
    var twice := AddTablenamePrefix(once, prefix);
    assert |twice.tableName| > |once.tableName|;
  }

  /** Renaming the table changes none of the key lookups. */
  lemma PrefixKeepsKeys(s: Schema, prefix: string, hashKey: Value, rangeKey: Value)
    ensures GetHashKey(AddTablenamePrefix(s, prefix)) == GetHashKey(s)
    ensures GetRangeKey(AddTablenamePrefix(s, prefix)) == GetRangeKey(s)
    ensures GetKeyMap(AddTablenamePrefix(s, prefix), hashKey, rangeKey) == GetKeyMap(s, hashKey, rangeKey)
  {
  }

  /** Builds the schema of a table whose only key is a string `HASH` attribute. */
  function HashOnlySchema(tableName: string, hashAttribute: string, attributeType: string, capacity: nat): (r: Schema)
    ensures r.keySchema == [KeyElement(hashAttribute, HashKeyType)]
  {
    Schema(tableName, [AttributeDefinition(hashAttribute, attributeType)],
           [KeyElement(hashAttribute, HashKeyType)], capacity, capacity)
  }

  const NavGroupSchema: Schema := HashOnlySchema("Nav", "nav_group_id", "S", 3)
  const SectionGroupSchema: Schema := HashOnlySchema("Section", "section_group_id", "S", 3)
  const CoupleSchema: Schema := HashOnlySchema("Couple", "couple_id", "S", 3)
  const GuestSchema: Schema := HashOnlySchema("Guest", "guest_id", "N", 2)
  const RsvpSchema: Schema := HashOnlySchema("RSVP", "rsvp_id", "S", 2)

  /** Each of the application's tables has a hash key, so `get` never raises on it. */
  lemma AppSchemasHaveHashKeys()
    ensures GetHashKey(NavGroupSchema) == Success(KeyElement("nav_group_id", HashKeyType))
    ensures GetHashKey(SectionGroupSchema) == Success(KeyElement("section_group_id", HashKeyType))
    ensures GetHashKey(CoupleSchema) == Success(KeyElement("couple_id", HashKeyType))
    ensures GetHashKey(GuestSchema) == Success(KeyElement("guest_id", HashKeyType))
    ensures GetHashKey(RsvpSchema) == Success(KeyElement("rsvp_id", HashKeyType))
  {
  }
}

=== FILE: log_file.dfy ===
/**
 * `get_log_file` of the utility script: the `--log-file` option when given,
 * otherwise the running script's file name, cut at its first `.`, with
 * `.log` appended. The script path (`__main__.__file__`) is a parameter.
 */
module LogFile {
  import opened Wrappers
  import opened Strs

  /** The longest suffix of `s` free of `c`: the text after the last `c`. */
  function AfterLast(s: string, c: char): (r: string)
    ensures c !in r
  {
    if c in s then AfterLast(s[1..], c) else s
  }

  /** `AfterLast` is a suffix, and the character just before it is the separator. */
  lemma {:induction false} AfterLastIsLastSegment(s: string, c: char)
    ensures var r := AfterLast(s, c);
            |r| <= |s| && r == s[|s| - |r|..] && (|r| < |s| ==> s[|s| - |r| - 1] == c)
  {
    if c in s {
      AfterLastIsLastSegment(s[1..], c);
    }
  }

  /** The longest prefix of `s` free of `c`: the text before the first `c`. */
  function BeforeFirst(s: string, c: char): (r: string)
    ensures c !in r
    ensures |r| <= |s| && r == s[..|r|]
    ensures |r| < |s| ==> s[|r|] == c
  {
    if |s| == 0 || s[0] == c then [] else [s[0]] + BeforeFirst(s[1..], c)
  }

  /** The first piece of a split is the text before the first separator. */
  lemma {:induction false} SplitFirst(s: string, sep: char)
    ensures Split(s, sep)[0] == BeforeFirst(s, sep)
  {
    if |s| > 0 && s[0] != sep {
      SplitFirst(s[1..], sep);
    }
  }

  /** `xs[-1]`. */
  function Last<T>(xs: seq<T>): (r: T)
    requires |xs| > 0
    ensures xs == xs[..|xs| - 1] + [r]
  {
    xs[|xs| - 1]
  }

  /** Dropping a first character that is not the last separator keeps the text after the last separator. */
  lemma AfterLastTail(s: string, sep: char)
    requires |s| > 0 && (s[0] == sep || sep in s[1..])
    ensures AfterLast(s, sep) == AfterLast(s[1..], sep)
  {
  }

  /** The last piece of a split is the text after the last separator. */
  lemma {:induction false} SplitLast(s: string, sep: char)
    ensures Last(Split(s, sep)) == AfterLast(s, sep)
  {
    if |s| > 0 {
      var t := s[1..];
      if s[0] == sep || sep in t {
        SplitLast(t, sep);
        AfterLastTail(s, sep);
        if s[0] != sep {
          SplitWithSep(t, sep);
        }
      } else {
        SplitWithoutSep(t, sep);
        assert s == [s[0]] + t;
      }
    }
  }

  /** The split-and-join expression of the script picks the stem of the last path segment. */
  lemma ProgramNameSteps(mainFile: string)
    ensures Join(Split(Last(Split(mainFile, '/')), '.')[..1], ".") == BeforeFirst(AfterLast(mainFile, '/'), '.')
  {
    var basename := Last(Split(mainFile, '/'));
    var pieces := Split(basename, '.');
    SplitLast(mainFile, '/');
    SplitFirst(basename, '.');
    assert pieces[..1] == [pieces[0]];
  }

  /**
   * The program name as the script computes it:
   * `'.'.join(path.split('/')[-1].split('.')[:1])`.
   */
  function ProgramName(mainFile: string): (r: string)
    ensures r == BeforeFirst(AfterLast(mainFile, '/'), '.')
    ensures '/' !in r && '.' !in r
  {
    ProgramNameSteps(mainFile);
    Join(Split(Last(Split(mainFile, '/')), '.')[..1], ".")
  }

  /** `get_log_file(options)`, with `options['--log-file']` as `logFileOption`. */
  function GetLogFile(logFileOption: Option<string>, mainFile: string): (r: string)
    ensures logFileOption.Some? && logFileOption.value != "" ==> r == logFileOption.value
    ensures logFileOption.None? || logFileOption.value == "" ==>
              |r| >= 4 && r[|r| - 4..] == ".log" && r[..|r| - 4] == BeforeFirst(AfterLast(mainFile, '/'), '.')
  {
    if logFileOption.Some? && logFileOption.value != "" then logFileOption.value
    else
      var name := ProgramName(mainFile);
      assert (name + ".log")[..|name|] == name;
      name + ".log"
  }

  /** The derived name depends on the last path segment only. */
  lemma SameBasenameSameLogFile(a: string, b: string)
    requires AfterLast(a, '/') == AfterLast(b, '/')
    ensures GetLogFile(None, a) == GetLogFile(None, b)
  {
    var ra, rb := GetLogFile(None, a), GetLogFile(None, b);
    assert ra == ra[..|ra| - 4] + ra[|ra| - 4..];
    assert rb == rb[..|rb| - 4] + rb[|rb| - 4..];
  }

  /** A last segment without a `.` is the program name as a whole. */
  lemma SegmentWithoutDotIsWhole(mainFile: string)
    requires '.' !in AfterLast(mainFile, '/')
    ensures ProgramName(mainFile) == AfterLast(mainFile, '/')
  {
  }

  /** An empty `--log-file` counts as absent. */
  lemma EmptyOptionIsAbsent(mainFile: string)
    ensures GetLogFile(Some(""), mainFile) == GetLogFile(None, mainFile)
  {
  }

  /** The text after the last separator of `dir + sep + base` is `base`, when `base` has no separator. */
  lemma {:induction false} AfterLastOfJoined(dir: string, sep: char, base: string)
    requires sep !in base
    ensures AfterLast(dir + [sep] + base, sep) == base
  {
    var p := dir + [sep] + base;
    assert sep in p by { assert p[|dir|] == sep; }
    if |dir| == 0 {
      assert p[1..] == base;
    } else {
      assert p[1..] == dir[1..] + [sep] + base;
      AfterLastOfJoined(dir[1..], sep, base);
    }
  }

  /** The text before the first `.` of `stem + "." + ext` is `stem`, when `stem` has no `.`. */
  lemma {:induction false} BeforeFirstOfJoined(stem: string, sep: char, ext: string)
    requires sep !in stem
    ensures BeforeFirst(stem + [sep] + ext, sep) == stem
  {
    if |stem| > 0 {
      assert (stem + [sep] + ext)[1..] == stem[1..] + [sep] + ext;
      BeforeFirstOfJoined(stem[1..], sep, ext);
    }
  }

  /** A script `stem.ext` logs to `stem.log`, run by bare name or from any directory. */
  lemma ScriptLogFile(dir: string, stem: string, ext: string)
    requires '/' !in stem && '/' !in ext && '.' !in stem
    ensures GetLogFile(None, stem + "." + ext) == stem + ".log"
    ensures GetLogFile(None, dir + "/" + stem + "." + ext) == stem + ".log"
  {
    var base := stem + "." + ext;
    assert '/' !in base;
    assert AfterLast(base, '/') == base;
    AfterLastOfJoined(dir, '/', base);
    assert dir + "/" + stem + "." + ext == dir + ['/'] + base;
    BeforeFirstOfJoined(stem, '.', ext);
    var r := GetLogFile(None, base);
    assert r == r[..|r| - 4] + r[|r| - 4..];
    SameBasenameSameLogFile(dir + "/" + stem + "." + ext, base);
  }
}

=== FILE: rsvp.dfy ===
/**
 * The `RSVP` record: its partition key is the guest's name normalised by
 * lower-casing, stripping and collapsing runs of spaces, and every stored
 * field passes through `non_null`.
 */
module Rsvp {
  import opened Wrappers
  import opened Values
  import opened Strs

  /** `non_null(thing)`, that is `thing or 'N/A'`. */
  function NonNull(thing: Value): (r: Value)
    ensures Truthy(r)
    ensures r.Str? ==> r.s != ""
    ensures Truthy(thing) ==> r == thing
    ensures !Truthy(thing) ==> r == Str("N/A")
  {
    if Truthy(thing) then thing else Str("N/A")
  }

  /** Applying `non_null` a second time changes nothing. */
  lemma NonNullIdempotent(thing: Value)
    ensures NonNull(NonNull(thing)) == NonNull(thing)
  {
  }

  predicate NoDoubleSpace(s: string) {
    forall i :: 0 <= i < |s| - 1 ==> !(s[i] == ' ' && s[i + 1] == ' ')
  }

  /** `s` is `r` with some of its spaces repeated, which is what collapsing runs of spaces undoes. */
  predicate Widens(r: string, s: string)
    decreases |r| + |s|
  {
    if |r| == 0 || |s| == 0 then |r| == 0 && |s| == 0
    else
      && r[0] == s[0]
      && (Widens(r[1..], s[1..]) || (r[0] == ' ' && |s| > 1 && s[1] == ' ' && Widens(r, s[1..])))
  }

  /** `re.sub(' +', ' ', s)`: every run of spaces becomes one space. */
  function CollapseSpaces(s: string): (r: string)
    ensures NoDoubleSpace(r)
    ensures |r| <= |s|
    ensures |s| > 0 ==> |r| > 0 && r[0] == s[0] && r[|r| - 1] == s[|s| - 1]
  {
    if |s| <= 1 then s
    else if s[0] == ' ' && s[1] == ' ' then CollapseSpaces(s[1..])
    else [s[0]] + CollapseSpaces(s[1..])
  }

  /** The input is its collapse with some spaces repeated. */
  lemma {:induction false} CollapseWidens(s: string)
    ensures Widens(CollapseSpaces(s), s)
  {
    if |s| == 1 {
      assert s[1..] == [];
    } else if |s| > 1 {
      CollapseWidens(s[1..]);
      if !(s[0] == ' ' && s[1] == ' ') {
        var rest := CollapseSpaces(s[1..]);
        assert ([s[0]] + rest)[1..] == rest;
      }
    }
  }

  /** Only one string without double spaces widens to `s`: the collapse is fixed by its contract. */
  lemma {:induction false} WidensUnique(r1: string, r2: string, s: string)
    requires NoDoubleSpace(r1) && Widens(r1, s)
    requires NoDoubleSpace(r2) && Widens(r2, s)
    ensures r1 == r2
    decreases |r1| + |r2| + |s|
  {
    if |s| > 0 {
      var a1 := Widens(r1[1..], s[1..]);
      var a2 := Widens(r2[1..], s[1..]);
      if a1 && a2 {
        WidensUnique(r1[1..], r2[1..], s[1..]);
        assert r1 == [r1[0]] + r1[1..] && r2 == [r2[0]] + r2[1..];
      } else if !a1 && !a2 {
        WidensUnique(r1, r2, s[1..]);
      } else {
        // one of them keeps a repeated space as its second character
        assert false;
      }
    }
  }

  /** The collapse is the one string without double spaces that widens to `s`. */
  lemma CollapseIsUnique(s: string, r: string)
    requires NoDoubleSpace(r) && Widens(r, s)
    ensures r == CollapseSpaces(s)
  {
    CollapseWidens(s);
    WidensUnique(r, CollapseSpaces(s), s);
  }

  /** Collapsing removes spaces only: every other character survives, in order. */
  lemma {:induction false} CollapseKeepsNonSpaces(s: string)
    ensures NonSpaces(CollapseSpaces(s)) == NonSpaces(s)
  {
    if |s| > 1 {
      CollapseKeepsNonSpaces(s[1..]);
      if !(s[0] == ' ' && s[1] == ' ') {
        var rest := CollapseSpaces(s[1..]);
        NonSpacesAppend([s[0]], rest);
        NonSpacesAppend([s[0]], s[1..]);
        assert s == [s[0]] + s[1..];
      }
    }
  }

  /** The partition key of an RSVP: `re.sub(' +', ' ', name.lower().strip())`. */
  function NormalizeName(name: string): (r: string)
    ensures NoUpper(r)
    ensures NoDoubleSpace(r)
    ensures |r| > 0 ==> !IsSpace(r[0]) && !IsSpace(r[|r| - 1])
    ensures NonSpaces(r) == NonSpaces(Lower(name))
  {
    var stripped := Strip(Lower(name));
    StripKeepsNoUpper(Lower(name));
    CollapseKeepsNoUpper(stripped);
    StripKeepsNonSpaces(Lower(name));
    CollapseKeepsNonSpaces(stripped);
    CollapseSpaces(stripped)
  }

  lemma {:induction false} CollapseKeepsNoUpper(s: string)
    requires NoUpper(s)
    ensures NoUpper(CollapseSpaces(s))
  {
    if |s| > 1 {
      CollapseKeepsNoUpper(s[1..]);
    }
  }

  lemma StripKeepsNoUpper(s: string)
    requires NoUpper(s)
    ensures NoUpper(Strip(s))
  {
    StripIsFramed(s);
    var lo :| SpaceFramed(s, Strip(s), lo);
    var r := Strip(s);
    forall i | 0 <= i < |r|
      ensures !IsUpper(r[i])
    {
      assert r[i] == s[lo + i];
    }
  }

  /** Text without two spaces in a row is left alone by the collapse. */
  lemma {:induction false} CollapseFixesSingleSpaced(s: string)
    requires NoDoubleSpace(s)
    ensures CollapseSpaces(s) == s
  {
    if |s| > 1 {
      CollapseFixesSingleSpaced(s[1..]);
      assert s == [s[0]] + s[1..];
    }
  }

  /** Removing leading whitespace and collapsing spaces can be done in either order. */
  lemma {:induction false} StripLeftCollapse(s: string)
    ensures StripLeft(CollapseSpaces(s)) == CollapseSpaces(StripLeft(s))
  {
    if |s| > 1 && IsSpace(s[0]) {
      var t := s[1..];
      StripLeftCollapse(t);
      if s[0] == ' ' && s[1] == ' ' {
        assert CollapseSpaces(s) == CollapseSpaces(t);
      } else {
        var ct := CollapseSpaces(t);
        assert CollapseSpaces(s) == [s[0]] + ct;
        assert ([s[0]] + ct)[1..] == ct;
      }
    }
  }

  /** Collapsing a string extended by one character. */
  lemma {:induction false} CollapseSnoc(s: string, c: char)
    ensures CollapseSpaces(s + [c]) ==
      if |s| > 0 && s[|s| - 1] == ' ' && c == ' ' then CollapseSpaces(s) else CollapseSpaces(s) + [c]
  {
    if |s| >= 2 {
      assert (s + [c])[1..] == s[1..] + [c];
      CollapseSnoc(s[1..], c);
    }
  }

  /** Stripping trailing whitespace after appending one character. */
  lemma StripRightSnoc(s: string, c: char)
    ensures StripRight(s + [c]) == if IsSpace(c) then StripRight(s) else s + [c]
  {
    assert (s + [c])[..|s|] == s;
  }

  /** Collapsing, seen from the last character. */
  lemma CollapseLast(s: string)
    requires |s| > 0
    ensures var v, c := s[..|s| - 1], s[|s| - 1];
            CollapseSpaces(s) ==
              if |v| > 0 && v[|v| - 1] == ' ' && c == ' ' then CollapseSpaces(v) else CollapseSpaces(v) + [c]
  {
    assert s == s[..|s| - 1] + [s[|s| - 1]];
    CollapseSnoc(s[..|s| - 1], s[|s| - 1]);
  }

  /** Removing trailing whitespace and collapsing spaces can be done in either order. */
  lemma {:induction false} StripRightCollapse(s: string)
    ensures StripRight(CollapseSpaces(s)) == CollapseSpaces(StripRight(s))
  {
    if |s| > 0 {
      var v, c := s[..|s| - 1], s[|s| - 1];
      CollapseLast(s);
      StripRightSnoc(CollapseSpaces(v), c);
      if IsSpace(c) {
        StripRightCollapse(v);
      }
    }
  }

  /** The id is the stripped, collapsed, lower-cased name, whichever order the last two happen. */
  lemma NormalizeNameCollapsedFirst(name: string)
    ensures NormalizeName(name) == Strip(CollapseSpaces(Lower(name)))
  {
    var lowered := Lower(name);
    StripLeftCollapse(lowered);
    StripRightCollapse(StripLeft(lowered));
  }

  /** Guests whose lower-cased names differ in anything but whitespace get different ids. */
  lemma DifferentNamesDifferentIds(a: string, b: string)
    requires NonSpaces(Lower(a)) != NonSpaces(Lower(b))
    ensures NormalizeName(a) != NormalizeName(b)
  {
  }

  /** Names that agree once lower-cased and with runs of spaces collapsed get the same id. */
  lemma SameIdUpToCaseAndSpacing(a: string, b: string)
    requires CollapseSpaces(Lower(a)) == CollapseSpaces(Lower(b))
    ensures NormalizeName(a) == NormalizeName(b)
  {
    NormalizeNameCollapsedFirst(a);
    NormalizeNameCollapsedFirst(b);
  }

  lemma NoUpperIsLower(s: string)
    requires NoUpper(s)
    ensures Lower(s) == s
  {
  }

  lemma StripFixesFramed(s: string)
    requires |s| > 0 ==> !IsSpace(s[0]) && !IsSpace(s[|s| - 1])
    ensures Strip(s) == s
  {
    assert StripLeft(s) == s;
  }

  /** An id normalises to itself. */
  lemma NormalizeNameIdempotent(name: string)
    ensures NormalizeName(NormalizeName(name)) == NormalizeName(name)
  {
    var n := NormalizeName(name);
    NoUpperIsLower(n);
    StripFixesFramed(n);
    CollapseFixesSingleSpaced(n);
  }

  /** Why an `RSVP` cannot be built. */
  datatype RsvpError =
    | AttributeError  // `name.lower()` on something that is not a string

  /** The attributes an `RSVP` instance holds after `__init__`. */
  datatype Rsvp = Rsvp(
    rsvpId: string,
    name: Value,
    email: Value,
    address: Value,
    guests: Value,
    hotelPreference: Value,
    notes: Value)

  /** None of the stored fields is falsy. */
  predicate FieldsFilled(r: Rsvp) {
    && Truthy(r.name) && Truthy(r.email) && Truthy(r.address)
    && Truthy(r.guests) && Truthy(r.hotelPreference) && Truthy(r.notes)
  }

  /** `RSVP.__init__`. */
  function NewRsvp(name: Value, email: Value, address: Value, guests: Value,
                   hotelPreference: Value, notes: Value): (r: Result<Rsvp, RsvpError>)
    ensures r.Success? <==> name.Str?
    ensures r.Failure? ==> r.error == AttributeError
    ensures r.Success? ==> FieldsFilled(r.value)
    ensures r.Success? ==> NoUpper(r.value.rsvpId) && NoDoubleSpace(r.value.rsvpId)
    ensures r.Success? ==> r.value.name == NonNull(name)
    ensures r.Success? && name.s != "" ==> r.value.name == name
    ensures r.Success? ==> r.value.rsvpId == NormalizeName(name.s)
    ensures r.Success? ==> r.value.email == NonNull(email) && r.value.address == NonNull(address)
                           && r.value.guests == NonNull(guests) && r.value.hotelPreference == NonNull(hotelPreference)
                           && r.value.notes == NonNull(notes)
  {
    if !name.Str? then Failure(AttributeError)
    else
      Success(Rsvp(NormalizeName(name.s), NonNull(name), NonNull(email), NonNull(address),
                   NonNull(guests), NonNull(hotelPreference), NonNull(notes)))
  }

  /** An empty name yields an empty partition key although the stored name is `'N/A'`. */
  lemma EmptyNameGivesEmptyId(email: Value, address: Value, guests: Value, hotelPreference: Value, notes: Value)
    ensures NewRsvp(Str(""), email, address, guests, hotelPreference, notes).Success?
    ensures NewRsvp(Str(""), email, address, guests, hotelPreference, notes).value.rsvpId == ""
    ensures NewRsvp(Str(""), email, address, guests, hotelPreference, notes).value.name == Str("N/A")
  {
  }

  /** Any whitespace-only name also yields an empty key while the stored name keeps the blanks. */
  lemma BlankNameGivesEmptyId(name: string, email: Value, address: Value, guests: Value,
                              hotelPreference: Value, notes: Value)
    requires |name| > 0 && forall i :: 0 <= i < |name| ==> IsSpace(name[i])
    ensures NewRsvp(Str(name), email, address, guests, hotelPreference, notes).value.rsvpId == ""
    ensures NewRsvp(Str(name), email, address, guests, hotelPreference, notes).value.name == Str(name)
  {
    assert forall i :: 0 <= i < |name| ==> !IsUpper(name[i]);
    assert Lower(name) == name;
    var l := StripLeft(name);
    assert |l| == 0;
  }
}

=== FILE: strs.dfy ===
/**
 * The Python string methods the model relies on: `str.lower`, `str.strip`,
 * `str.split(sep)` and `sep.join(parts)`, on strings as sequences of characters.
 */
module Strs {

  /** The characters `str.isspace` accepts, which `str.strip()` removes. */
  predicate IsSpace(c: char) {
    || c == ' ' || ('\U{0009}' <= c <= '\U{000D}') || ('\U{001C}' <= c <= '\U{001F}')
    || c == '\U{0085}' || c == '\U{00A0}' || c == '\U{1680}'
    || ('\U{2000}' <= c <= '\U{200A}') || c == '\U{2028}' || c == '\U{2029}'
    || c == '\U{202F}' || c == '\U{205F}' || c == '\U{3000}'
  }

  predicate IsUpper(c: char) {
    'A' <= c <= 'Z'
  }

  /** Lower-cases one ASCII letter; every other character is left alone. */
  function LowerChar(c: char): (r: char)
    ensures !IsUpper(r)
    ensures IsUpper(c) ==> r as int == c as int + 32
    ensures !IsUpper(c) ==> r == c
  {
    if IsUpper(c) then (c as int + 32) as char else c
  }

  /** `s.lower()`, restricted to the ASCII letters. */
  function Lower(s: string): (r: string)
    ensures |r| == |s| && NoUpper(r)
    ensures forall i :: 0 <= i < |s| && !IsUpper(s[i]) ==> r[i] == s[i]
    ensures forall i :: 0 <= i < |s| && IsUpper(s[i]) ==> r[i] as int == s[i] as int + 32
  {
    seq(|s|, i requires 0 <= i < |s| => LowerChar(s[i]))
  }

  predicate NoUpper(s: string) {
    forall i :: 0 <= i < |s| ==> !IsUpper(s[i])
  }

  /** Removes the leading whitespace of `s`. */
  function StripLeft(s: string): (r: string)
    ensures |r| <= |s| && r == s[|s| - |r|..]
    ensures forall i :: 0 <= i < |s| - |r| ==> IsSpace(s[i])
    ensures |r| > 0 ==> !IsSpace(r[0])
  {
    if |s| > 0 && IsSpace(s[0]) then StripLeft(s[1..]) else s
  }

  /** Removes the trailing whitespace of `s`. */
  function StripRight(s: string): (r: string)
    ensures |r| <= |s| && r == s[..|r|]
    ensures forall i :: |r| <= i < |s| ==> IsSpace(s[i])
    ensures |r| > 0 ==> !IsSpace(r[|r| - 1])
  {
    if |s| > 0 && IsSpace(s[|s| - 1]) then StripRight(s[..|s| - 1]) else s
  }

  /** `r` is the slice of `s` starting at `lo`, and only whitespace surrounds it. */
  ghost predicate SpaceFramed(s: string, r: string, lo: int) {
    && 0 <= lo <= |s| - |r|
    && r == s[lo..lo + |r|]
    && (forall i :: 0 <= i < lo ==> IsSpace(s[i]))
    && (forall i :: lo + |r| <= i < |s| ==> IsSpace(s[i]))
  }

  /** `s.strip()`: the text between the leading and the trailing whitespace. */
  function Strip(s: string): (r: string)
    ensures |r| > 0 ==> !IsSpace(r[0]) && !IsSpace(r[|r| - 1])
  {
    StripRight(StripLeft(s))
  }

  /** Framing composes: whitespace around whitespace-framed text frames it in the whole. */
  lemma FramedTwice(s: string, m: string, r: string, lo1: int, lo2: int)
    requires SpaceFramed(s, m, lo1) && SpaceFramed(m, r, lo2)
    ensures SpaceFramed(s, r, lo1 + lo2)
  {
    forall i | 0 <= i < |r|
      ensures r[i] == s[lo1 + lo2 + i]
    {
      assert r[i] == m[lo2 + i];
    }
    forall i | 0 <= i < lo1 + lo2
      ensures IsSpace(s[i])
    {
      if i >= lo1 {
        assert s[i] == m[i - lo1];
      }
    }
    forall i | lo1 + lo2 + |r| <= i < |s|
      ensures IsSpace(s[i])
    {
      if i < lo1 + |m| {
        assert s[i] == m[i - lo1];
      }
    }
  }

  /** What `strip` keeps is a slice of the input with only whitespace cut away on either side. */
  lemma StripIsFramed(s: string)
    ensures exists lo :: SpaceFramed(s, Strip(s), lo)
  {
    var l := StripLeft(s);
    var r := StripRight(l);
    assert SpaceFramed(s, l, |s| - |l|);
    assert SpaceFramed(l, r, 0);
    FramedTwice(s, l, r, |s| - |l|, 0);
    assert Strip(s) == r;
  }

  /** `s` with every whitespace character removed: the text `strip` must keep. */
  function NonSpaces(s: string): string {
    if |s| == 0 then ""
    else if IsSpace(s[0]) then NonSpaces(s[1..])
    else [s[0]] + NonSpaces(s[1..])
  }

  lemma {:induction false} NonSpacesAppend(a: string, b: string)
    ensures NonSpaces(a + b) == NonSpaces(a) + NonSpaces(b)
  {
    if |a| == 0 {
      assert a + b == b;
    } else {
      assert (a + b)[0] == a[0];
      assert (a + b)[1..] == a[1..] + b;
      NonSpacesAppend(a[1..], b);
    }
  }

  lemma {:induction false} NonSpacesOfBlank(s: string)
    requires forall i :: 0 <= i < |s| ==> IsSpace(s[i])
    ensures NonSpaces(s) == ""
  {
    if |s| > 0 {
      assert forall i :: 0 <= i < |s[1..]| ==> s[1..][i] == s[i + 1];
      NonSpacesOfBlank(s[1..]);
    }
  }

  /** Cutting away surrounding whitespace keeps every other character, in order. */
  lemma FramedKeepsNonSpaces(s: string, r: string, lo: int)
    requires SpaceFramed(s, r, lo)
    ensures NonSpaces(r) == NonSpaces(s)
  {
    var hi := lo + |r|;
    var pre, post := s[..lo], s[hi..];
    assert r == s[lo..hi];
    assert s == pre + r + post;
    assert forall i :: 0 <= i < |pre| ==> pre[i] == s[i];
    NonSpacesOfBlank(pre);
    assert forall i :: 0 <= i < |post| ==> post[i] == s[hi + i];
    NonSpacesOfBlank(post);
    NonSpacesAppend(pre + r, post);
    NonSpacesAppend(pre, r);
  }

  /** `strip` removes whitespace only: every other character survives, in order. */
  lemma StripKeepsNonSpaces(s: string)
    ensures NonSpaces(Strip(s)) == NonSpaces(s)
  {
    StripIsFramed(s);
    var lo :| SpaceFramed(s, Strip(s), lo);
    FramedKeepsNonSpaces(s, Strip(s), lo);
  }

  /** `s.split(sep)`: the pieces between the occurrences of `sep`, at least one. */
  function Split(s: string, sep: char): (r: seq<string>)
    ensures |r| >= 1
  {
    if |s| == 0 then [""]
    else if s[0] == sep then [""] + Split(s[1..], sep)
    else
      var rest := Split(s[1..], sep);
      [[s[0]] + rest[0]] + rest[1..]
  }

  /** No piece of a split contains the separator. */
  lemma {:induction false} SplitPiecesExcludeSep(s: string, sep: char)
    ensures forall k :: 0 <= k < |Split(s, sep)| ==> sep !in Split(s, sep)[k]
  {
    if |s| > 0 {
      SplitPiecesExcludeSep(s[1..], sep);
      var rest := Split(s[1..], sep);
      if s[0] != sep {
        var r := Split(s, sep);
        forall k | 0 <= k < |r|
          ensures sep !in r[k]
        {
          if k > 0 {
            assert r[k] == rest[k];
          }
        }
      }
    }
  }

  /** The summed length of `parts`. */
  function TotalLength(parts: seq<string>): nat {
    if |parts| == 0 then 0 else |parts[0]| + TotalLength(parts[1..])
  }

  /** `sep.join(parts)`, and JavaScript's `parts.join(sep)`: the parts with one separator between each neighbouring pair. */
  function Join(parts: seq<string>, sep: string): (r: string)
    ensures |parts| == 0 ==> r == ""
    ensures |parts| == 1 ==> r == parts[0]
    ensures |parts| > 0 ==> |r| == TotalLength(parts) + (|parts| - 1) * |sep|
    ensures |parts| > 0 ==> |r| >= |parts[0]| && r[..|parts[0]|] == parts[0]
  {
    if |parts| == 0 then ""
    else if |parts| == 1 then parts[0]
    else parts[0] + sep + Join(parts[1..], sep)
  }

  /** Joining a list of at least two parts puts the separator after the first. */
  lemma JoinCons(first: string, rest: seq<string>, sep: string)
    requires |rest| > 0
    ensures Join([first] + rest, sep) == first + sep + Join(rest, sep)
  {
    assert ([first] + rest)[1..] == rest;
  }

  /** Joining two non-empty lists one after the other puts one separator between their joins. */
  lemma {:induction false} JoinAppend(a: seq<string>, b: seq<string>, sep: string)
    requires |a| > 0 && |b| > 0
    ensures Join(a + b, sep) == Join(a, sep) + sep + Join(b, sep)
    decreases |a|
  {
    if |a| == 1 {
      assert a + b == [a[0]] + b;
      JoinCons(a[0], b, sep);
    } else {
      var tail := a[1..];
      assert a + b == [a[0]] + (tail + b);
      assert a == [a[0]] + tail;
      JoinCons(a[0], tail + b, sep);
      JoinAppend(tail, b, sep);
      JoinCons(a[0], tail, sep);
    }
  }

  /** Extending the first part extends the joined string at its front. */
  lemma JoinExtendFirst(x: string, parts: seq<string>, sep: string)
    requires |parts| > 0
    ensures Join([x + parts[0]] + parts[1..], sep) == x + Join(parts, sep)
  {
    if |parts| > 1 {
      JoinCons(x + parts[0], parts[1..], sep);
      JoinCons(parts[0], parts[1..], sep);
      assert parts == [parts[0]] + parts[1..];
    }
  }

  /** Joining the pieces of a split with the same separator gives back the string. */
  lemma {:induction false} JoinSplit(s: string, sep: char)
    ensures Join(Split(s, sep), [sep]) == s
  {
    if |s| > 0 {
      var rest := Split(s[1..], sep);
      JoinSplit(s[1..], sep);
      if s[0] == sep {
        JoinCons("", rest, [sep]);
      } else {
        JoinExtendFirst([s[0]], rest, [sep]);
      }
      assert s == [s[0]] + s[1..];
    }
  }

  /** A string without the separator splits into itself alone. */
  lemma {:induction false} SplitWithoutSep(s: string, sep: char)
    requires sep !in s
    ensures Split(s, sep) == [s]
  {
    if |s| > 0 {
      assert sep !in s[1..];
      SplitWithoutSep(s[1..], sep);
      assert s == [s[0]] + s[1..];
    }
  }

  /** A string holding the separator splits into at least two pieces. */
  lemma {:induction false} SplitWithSep(s: string, sep: char)
    requires sep in s
    ensures |Split(s, sep)| >= 2
  {
    if s[0] != sep {
      assert sep in s[1..];
      SplitWithSep(s[1..], sep);
    }
  }
}

=== FILE: values.dfy ===
/**
 * The Python values that reach the modelled code: `None`, strings and
 * integers (a `bool` behaves as the integers 0 and 1).
 */
module Values {

  datatype Value = Null | Str(s: string) | Int(i: int)

  /** Python truthiness: `None`, `''` and `0` are falsy, everything else truthy. */
  predicate Truthy(v: Value) {
    match v
    case Null => false
    case Str(s) => s != ""
    case Int(i) => i != 0
  }
}

=== FILE: wrappers.dfy ===
/** `Option` and `Result`, shared by the rest of the model. */
module Wrappers {

  /** A value that may be absent: Python's `None`, JavaScript's `null`. */
  datatype Option<+T> = None | Some(value: T)

  /** A computation that either produces a value or raises an error. */
  datatype Result<+R, +E> = Success(value: R) | Failure(error: E) {

    function ToOption(): Option<R> {
      match this
      case Success(v) => Some(v)
      case Failure(_) => None
    }
  }
}
